=== FILE: README.md ===
# Resume-matcher client: a Dafny model of its client-side logic

The repository is a React single-page client for a resume/job-matching
service. Scoring, matching, storage and authentication all happen on a
remote REST backend. The client's own logic is small and is modelled
here as pure state transitions over immutable records:

- **Notifications** (`notifications.dfy`): the notification list and the
  single-slot snackbar. `notify` appends an entry and opens the snackbar.
  An expiry timer drops the oldest entry. Closing an alert removes every
  entry with that id. Runs of such events are modelled too, with
  first-in-first-out and conservation lemmas.
- **Navigation** (`navigation.dfy`): the page enum, the side drawer and its
  entries, the session (token and username), the role gates on the job
  board, the applications viewer and the apply dialog.
- **Text** and **Skills** (`text.dfy`, `skills.dfy`): JavaScript's `trim`,
  `split` and `join`, and the two comma-separated skill parsers. The
  profile path drops empty items; the job-post path keeps them.
- **Profile** (`profile.dfy`): the `Profile` component. It loads a profile,
  edits it, and saves it with parsed skills.
- **App** (`app.dfy`): the `App` component's handlers. They cover
  login/registration, matching, the job board, job posting, applying,
  the applications viewer, logout, and the drawer.

A handler that calls the backend is split into `Begin…` and `Complete…`.
`Begin…` does local validation and yields the request to send, if any.
The Load Jobs button and the profile fetch do nothing before their request,
so they have only the completion (`App.CompleteLoadJobs`, `Profile.Loaded`).
`Complete…` takes the response as an input: a success payload, or a
failure with the server's message ("" when there is none). Notification
ids come from the clock in the source; here they are a parameter `now`.
The expiry timer firing is an explicit `Tick` event.

Entries do not leave at a fixed 3.5 s after being posted. Every change to
the list cancels the pending timer and starts a new 3.5 s one
(`src/App.js:169-176`). So a `Tick` stands for 3.5 s passing with no change
to the list, and a burst of notifications delays expiry until the list is
quiet.

## Model

| member | source | states |
|---|---|---|
| Notifications.Notify | src/App.js:163-167 | exactly one entry `{message, severity, id}` is appended at the end; earlier entries stay in place and in order; the snackbar opens showing the message |
| Notifications.Expire | src/App.js:169-176 | on a non-empty list exactly the oldest entry leaves and the rest keep their order; on an empty list nothing is scheduled and nothing changes; the snackbar is untouched |
| Notifications.Without | src/App.js:703 | the filter keeps exactly the entries with another id, in their original order (a subsequence), and the length drops by the number of entries carrying the id |
| Notifications.Dismiss | src/App.js:698-704 | after closing entry `id` no entry has that id, every entry with another id survives in order, the length drops by the number of matches, the snackbar is untouched |
| Notifications.CloseSnackbar | src/App.js:162 | the snackbar closes; its text and the list are unchanged |
| Notifications.DismissPartition | src/App.js:703 | the survivors and the removed entries together are exactly the original entries, as a multiset |
| Notifications.RunIsFifo | src/App.js:163-176 | over any run of posts, ticks and snackbar closes, the entries that expired followed by those still listed equal the initial entries followed by the posted ones; the departures are a prefix of the arrivals |
| Notifications.RunConserves | src/App.js:163-176 | over any run of events, including dismissals, initial plus posted entries equal final plus removed entries, as multisets |
| Notifications.RunLength | src/App.js:163-176 | the list's length is the initial length plus the posts minus the removals, never more than initial plus posts |
| Notifications.DrainByTimer | src/App.js:169-176 | the timer that re-arms while the list is non-empty removes every entry, oldest first, and leaves the snackbar alone |
| Navigation.OpenDrawer | src/App.js:411 | the drawer opens and the page is unchanged |
| Navigation.CloseDrawer | src/App.js:421 | the drawer closes and the page is unchanged |
| Navigation.SelectEntry | src/App.js:427 | the page becomes the entry's page and the drawer closes |
| Navigation.SelectIdempotent | src/App.js:427 | selecting the same entry twice gives the same state as selecting it once |
| Navigation.SelectHighlightsChoice | src/App.js:423-427 | after selecting a drawer entry exactly that entry is drawn as current |
| Navigation.DrawerPages | src/App.js:398-404 | the drawer reaches a page iff it is neither the login nor the password-reset page |
| Navigation.GatesPartition | src/App.js:563-603 | with an empty token neither the admin controls nor the apply control shows; with a token exactly one shows, the admin controls iff the username is "admin" |
| Navigation.OpenViewer | src/App.js:374 | the panel shows exactly the given job's applications |
| Navigation.CloseViewer | src/App.js:641 | the panel resets to hidden, no job id, no applications |
| Navigation.CloseViewerForgets | src/App.js:641 | closing gives the same panel whatever was open, and closing twice is closing once |
| Text.LeadingSpace | src/App.js:56 | the count is the index of the first non-whitespace character: everything before it is whitespace, and it is the length when all is |
| Text.ContentEnd | src/App.js:56 | the index is one past the last non-whitespace character: everything from it on is whitespace |
| Text.Trim | src/App.js:56 | the result has no whitespace at either end and is the input with whitespace padding removed on both sides |
| Text.TrimUnique | src/App.js:56 | a trimmed string with only whitespace before and after it inside `s` is exactly what `s` trims to, so the contract of `Trim` determines it |
| Text.Split | src/App.js:56 | splitting on a character gives one more piece than there are separators, no piece contains the separator, and joining the pieces with it gives the input back |
| Text.SplitJoin | src/App.js:326 | separator-free pieces joined with the separator split back into the same pieces (with `Split`'s own join property, the two are inverse) |
| Skills.DropEmpty | src/App.js:56 | the filter keeps exactly the non-empty strings, in order and each as often as it occurs (the result is a subsequence whose length is the input's minus its empty strings), and changes nothing when none is empty |
| Skills.JobSkills | src/App.js:326 | the job-post parse has one entry per comma plus one, entry i being the i-th comma-separated piece trimmed, so each is trimmed and comma-free, possibly empty |
| Skills.ProfileSkills | src/App.js:56 | the profile parse keeps, in input order and with their multiplicity, exactly the non-empty entries of the trimmed split, each non-empty, trimmed and comma-free |
| Skills.JobSkillsRoundTrip | src/App.js:326 | trimmed, comma-free skills typed with "," or ", " between them parse back to the same list |
| Skills.ProfileSkillsRoundTrip | src/App.js:47-56 | skills shown joined by ", " and saved unchanged parse back to the same list, the empty list included |
| Profile.Loaded | src/App.js:39-51 | a fetched profile is shown, the skills field holds its skills joined by ", " and parses back to them whenever they are well-formed; edit mode and message are unchanged |
| Profile.StartEditing | src/App.js:110 | edit mode turns on and nothing else changes |
| Profile.CancelEditing | src/App.js:114 | the handler turns edit mode off and changes nothing else: the shown profile, the typed skills and the message stay, until the profile fetch this re-triggers returns and replaces them (`Profile.Loaded`) |
| Profile.Edit | src/App.js:53 | typing sets the named field of the profile; every other field, the skills text, edit mode and the message are unchanged |
| Profile.EditSkills | src/App.js:54 | typing into the skills field sets that text; the profile, edit mode and the message are unchanged |
| Profile.BeginSave | src/App.js:55-61 | the profile sent keeps username, name and bio, and its skills are the profile parse of the skills field, so every skill is non-empty, trimmed and comma-free |
| Profile.CompleteSave | src/App.js:62-68 | an OK response shows the sent profile, leaves edit mode, says "Profile updated!" and the handler keeps the typed skills text (the profile fetch that leaving edit mode re-triggers then replaces it); another status only sets the error message; a rejected fetch changes nothing |
| Profile.LoadThenSaveIsIdentity | src/App.js:39-69 | saving a freshly loaded profile with well-formed skills sends it back unchanged and shows it after success |
| Profile.SaveIsStable | src/App.js:47-61 | a saved profile, loaded again and saved, is sent unchanged |
| App.ChooseEntry | src/App.js:427 | a drawer click sets the entry's page and closes the drawer; nothing else in the app changes |
| App.ForgotPassword | src/App.js:451 | the page becomes the reset page; nothing else changes |
| App.Logout | src/App.js:522 | the page becomes login and the token empty; the username, the overlays and all other state are unchanged |
| App.LogoutHidesGatedControls | src/App.js:522 | after logout no role-gated control shows, while an open applications panel stays open |
| App.BeginAuth | src/App.js:187-195 | the error is cleared and the credentials go to the login or the register endpoint by kind |
| App.CompleteAuth | src/App.js:197-203 | success stores the token, shows the matcher and adds one success notification reading "Login successful!" or "Registered & logged in!" by kind; failure sets the error to the server's message or "Auth error" and adds one "Authentication failed!" error notification; nothing else changes in either case |
| App.AdminSessionGates | src/App.js:563 | signing in as "admin" with a token shows the admin controls and hides the apply control; logging out hides the admin controls |
| App.BeginMatch | src/App.js:232-241 | submitting clears the report, the AI tips and the error, and sends the resume and job text |
| App.CompleteMatch | src/App.js:242-247 | success shows the report and adds one notification "Your resume matched N% for this job!" (N the score in decimal) of severity success iff score > 50, else info; failure sets the error to the server's message or "Match error" and adds one "Matching error!" error notification; nothing else changes in either case |
| App.FailedMatchShowsNothing | src/App.js:235-247 | a submitted match that fails shows no report, even if one was shown before, and ends with an error notification |
| App.MatchSeverity | src/App.js:243 | the match notification is "success" iff the score exceeds 50 and "info" iff it does not |
| App.CompleteLoadJobs | src/App.js:302-312 | success replaces the job list and adds the info notification "Loaded job listings.", nothing else changing; failure only adds the error notification "Failed to load jobs." |
| App.BeginPostJob | src/App.js:315-329 | nothing is sent iff title, description or skills is empty, and then the only effect is the warning "Fill all fields to post a job."; otherwise the state is untouched and the request carries the title, the description and the job-post parse of the skills field: one trimmed, comma-free skill per comma plus one |
| App.PostJobSendsTypedSkills | src/App.js:326 | a filled form whose non-empty skills field is trimmed, comma-free skills joined by ", " posts exactly those skills, empty ones included |
| App.BlankSkillsArePosted | src/App.js:316-326 | any non-empty, whitespace-only skills field passes validation and posts the single skill "" |
| App.CompletePostJob | src/App.js:330-336 | success clears the form, requests a job-list reload and adds the success notification "Job posted successfully!"; failure only adds the error notification "Failed to post job." |
| App.OpenApply | src/App.js:589-591 | Apply Now opens the dialog on that job and records its id; nothing else changes |
| App.CancelApply | src/App.js:609 | the dialog closes, keeping the selected job; nothing else changes |
| App.SendApplication | src/App.js:342-353 | the dialog always closes; nothing is sent iff the job id or resume is empty, and then the only other effect is the warning "Fill all fields to apply."; otherwise the job id and resume are sent |
| App.CompleteApply | src/App.js:355-364 | success clears job id and resume, sets "Application sent!" and adds the success notification "Your application was submitted!"; failure only adds the error notification "Failed to submit application." |
| App.ResendAfterSuccessIsRefused | src/App.js:343-358 | after a successful application, sending again without retyping is refused locally |
| App.BeginViewApplications | src/App.js:596-599 | a View Applications click requests that job's applications and changes nothing else |
| App.ViewerShowsClickedJob | src/App.js:368-375 | the click's request followed by a successful response opens the panel on the clicked job with the returned applications |
| App.CompleteViewApplications | src/App.js:368-380 | success opens the panel on exactly that job's applications and adds the info notification "Loaded applications for job."; failure only adds the error notification "Failed to load applications." |
| App.CloseApplications | src/App.js:640-641 | the panel resets to hidden, no job id, no applications; nothing else changes |
| App.OpenThenCloseViewer | src/App.js:641 | opening a closed panel and closing it again leaves only the load notification behind |

## Left out

- Network I/O (axios and fetch calls): requests are values of `App.Request`, and responses are inputs to the `Complete…` functions.
- Wall-clock timers: the 3.5 s dwell, `setTimeout`/`clearTimeout` and the snackbar's auto-hide. Expiry is the `Tick` event, and the snackbar's hide is `CloseSnackbar`.
- `Date.now()` ids: nondeterministic, so they are the parameter `now`.
- React hook semantics. Dismissal reads the rendered list rather than the latest one (`src/App.js:703`); the sequential model treats both as the same list. The `Profile` fetch re-runs whenever edit mode changes (`src/App.js:51`); the model has its completion `Profile.Loaded` but does not schedule it.
- The order in which concurrent requests complete: the model applies one completion at a time, in any order the caller chooses.
- JSX rendering, MUI components, the theme and dark mode: presentation only.
- The PDF report and preview (jsPDF, react-pdf): foreign libraries.
- Resume upload (`src/App.js:208-230`): it reads a DOM file input. History, admin analytics, AI tips and password reset (`src/App.js:252-300`, `src/App.js:461-479`) only display a server payload and notify.
- Typing into the login, matcher and apply text fields, and into the job-post form (`src/App.js:566-568`): plain setters of one field each.
- The `console.error` calls in the catch blocks (`src/App.js:334`, `src/App.js:362`, `src/App.js:377`): logging only, no state changes.
- App.CompleteMatch: match scores are whole numbers here, printed digit by digit; a fractional JSON score is not modelled, nor are whole-number scores above 2^53, which JavaScript rounds when parsing, or from 10^21 on, which it prints in exponent form (`1e+21`).
- Profile.Loaded: models only a successful fetch of a well-typed profile. `fetchProfile` does not check `res.ok` (`src/App.js:42-47`), so a non-2xx JSON body becomes the shown profile with an empty skills field; a rejected fetch or non-JSON body is swallowed by `catch {}` (`src/App.js:48`) and changes nothing. Neither path is modelled, because an error body does not have the shape of a profile.
- App.CompleteAuth: a response without a token stores the empty string, not `undefined`.
- Strings are sequences of Unicode scalar values, not UTF-16 code units: lone surrogates cannot occur, and `trim` and `split(',')` agree with UTF-16 on every other input.
- `src/App.test.js` holds DOM render tests only; it is not part of this model.

=== FILE: app.dfy ===
/** The `App` component's own state and the handlers that change it.

    A handler that talks to the backend is split in two: `Begin…` runs the
    synchronous part (local validation, clearing fields) and yields the
    request to send, if any; `Complete…` applies the response, which is an
    input: `Succeeded(payload)` or `Failed(detail)`, where `detail` is the
    server's error message or "" when there is none. Every completion
    announces its outcome with exactly one notification; a local validation
    failure announces a warning and sends nothing. `now` is the clock
    reading that becomes the notification's id. */
module App {
  import opened Common
  import opened Text
  import opened Skills
  import opened Notifications
  import opened Navigation

  datatype AuthKind = SignIn | Register

  /** The server's match report. */
  datatype MatchResult = MatchResult(
    score: int, user: string,
    resumeSkills: seq<string>, jobSkills: seq<string>,
    matchedSkills: seq<string>, missingSkills: seq<string>)

  /** The admin's job-post form: three free-text fields. */
  datatype JobForm = JobForm(title: string, description: string, skills: string)

  const EmptyJobForm := JobForm("", "", "")

  /** What the client asks of the backend. */
  datatype Request =
    | LoginRequest(username: string, password: string)
    | RegisterRequest(username: string, password: string)
    | MatchRequest(resume: string, job: string)
    | LoadJobsRequest
    | PostJobRequest(title: string, description: string, skills: seq<string>)
    | ApplyRequest(jobId: string, resumeText: string)
    | ApplicationsRequest(jobId: string)

  /** How a request ended. */
  datatype Outcome<T> = Succeeded(value: T) | Failed(detail: string)

  datatype State = State(
    nav: Nav,
    session: Session,
    password: string,
    error: string,
    resume: string,
    job: string,
    report: Option<MatchResult>,
    aiTips: string,
    jobs: seq<Job>,
    addJob: JobForm,
    applyJobId: string,
    applyResume: string,
    applyMsg: string,
    dialog: ApplyDialog,
    viewer: Viewer,
    toasts: Toasts)

  /** A handler's new state and the request it sends, if any. */
  datatype Dispatch = Dispatch(state: State, request: Option<Request>)

  /** `r` is `s` with one notification of `message` and `severity`
      appended and nothing else changed. */
  predicate OnlyAnnounced(s: State, r: State, message: string, severity: Severity) {
    r == s.(toasts := r.toasts) && Announced(s.toasts, r.toasts, message, severity)
  }

  /** `notify(message, severity)` on the app state. */
  function Say(s: State, message: string, severity: Severity, now: int): State {
    s.(toasts := Notify(s.toasts, message, severity, now))
  }

  /** JavaScript's `detail || fallback` on strings. */
  function OrElse(detail: string, fallback: string): string {
    if detail != "" then detail else fallback
  }

  // ----- Drawer and page transitions -----

  /** A drawer entry click: its page, drawer closed, nothing else touched. */
  function ChooseEntry(s: State, entry: DrawerEntry): (r: State)
    ensures r.nav.page == entry.page && !r.nav.drawerOpen
    ensures r == s.(nav := r.nav)
  {
    s.(nav := SelectEntry(s.nav, entry))
  }

  /** The "Forgot password?" button on the login page. */
  function ForgotPassword(s: State): (r: State)
    ensures r.nav.page == Reset
    ensures r == s.(nav := r.nav) && r.nav.drawerOpen == s.nav.drawerOpen
  {
    s.(nav := s.nav.(page := Reset))
  }

  /** The Logout button: back to the login page with an empty token. The
      username, the overlays and everything else stay as they were. */
  function Logout(s: State): (r: State)
    ensures r.nav.page == Login && r.session.token == ""
    ensures r.session.username == s.session.username && r.nav.drawerOpen == s.nav.drawerOpen
    ensures r == s.(nav := r.nav, session := r.session)
  {
    s.(nav := s.nav.(page := Login), session := s.session.(token := ""))
  }

  /** After logout no role-gated control is shown, but an applications
      panel that was open stays open: it is rendered independently of the
      page and of the token. */
  lemma LogoutHidesGatedControls(s: State)
    ensures !ShowsAdminControls(Logout(s).session) && !ShowsApplyControl(Logout(s).session)
    ensures Logout(s).viewer == s.viewer
  {
    GatesPartition(Logout(s).session);
  }

  // ----- Authentication -----

  /** The Login or Register button: clear the error and send the
      credentials to the matching endpoint. */
  function BeginAuth(s: State, kind: AuthKind): (d: Dispatch)
    ensures d.state == s.(error := "")
    ensures kind == SignIn ==> d.request == Some(LoginRequest(s.session.username, s.password))
    ensures kind == Register ==> d.request == Some(RegisterRequest(s.session.username, s.password))
  {
    var request := match kind
      case SignIn => LoginRequest(s.session.username, s.password)
      case Register => RegisterRequest(s.session.username, s.password);
    Dispatch(s.(error := ""), Some(request))
  }

  /** The auth response: on success store the token and go to the matcher;
      on failure show the server's message (or "Auth error") and stay. */
  function CompleteAuth(s: State, kind: AuthKind, outcome: Outcome<string>, now: int): (r: State)
    ensures outcome.Succeeded? ==>
              && r.session == Session(outcome.value, s.session.username)
              && r.nav == s.nav.(page := Matcher)
              && r == s.(session := r.session, nav := r.nav, toasts := r.toasts)
              && Announced(s.toasts, r.toasts,
                           if kind == SignIn then "Login successful!" else "Registered & logged in!", Success)
    ensures outcome.Failed? ==>
              && r.error == (if outcome.detail != "" then outcome.detail else "Auth error")
              && r == s.(error := r.error, toasts := r.toasts)
              && Announced(s.toasts, r.toasts, "Authentication failed!", Error)
  {
    match outcome
    case Succeeded(token) =>
      var message := if kind == SignIn then "Login successful!" else "Registered & logged in!";
      Say(s.(session := s.session.(token := token), nav := s.nav.(page := Matcher)), message, Success, now)
    case Failed(detail) =>
      Say(s.(error := OrElse(detail, "Auth error")), "Authentication failed!", Error, now)
  }

  /** Signing in as "admin" with a non-empty token unlocks the
      administrative controls, and logging out locks them again. */
  lemma AdminSessionGates(s: State, kind: AuthKind, token: string, now: int)
    requires s.session.username == AdminName && token != ""
    ensures ShowsAdminControls(CompleteAuth(s, kind, Succeeded(token), now).session)
    ensures !ShowsApplyControl(CompleteAuth(s, kind, Succeeded(token), now).session)
    ensures !ShowsAdminControls(Logout(CompleteAuth(s, kind, Succeeded(token), now)).session)
  {
  }

  // ----- Resume matching -----

  /** Submitting the match form: clear the error, the previous match and
      the AI tips, then send the resume and job description. */
  function BeginMatch(s: State): (d: Dispatch)
    ensures d.state.report == None && d.state.aiTips == "" && d.state.error == ""
    ensures d.state == s.(report := None, aiTips := "", error := "")
    ensures d.request == Some(MatchRequest(s.resume, s.job))
  {
    Dispatch(s.(error := "", report := None, aiTips := ""), Some(MatchRequest(s.resume, s.job)))
  }

  /** The severity that announces a match score. */
  function ScoreSeverity(score: int): Severity {
    if score > 50 then Success else Info
  }

  /** The match response: on success show the report and announce the
      score; on failure keep the (cleared) match, set the error and
      announce an error. */
  function CompleteMatch(s: State, outcome: Outcome<MatchResult>, now: int): (r: State)
    ensures outcome.Succeeded? ==>
              && r.report == Some(outcome.value)
              && r == s.(report := r.report, toasts := r.toasts)
              && Announced(s.toasts, r.toasts,
                           "Your resume matched " + IntDecimal(outcome.value.score) + "% for this job!",
                           ScoreSeverity(outcome.value.score))
    ensures outcome.Failed? ==>
              && r.error == (if outcome.detail != "" then outcome.detail else "Match error")
              && r == s.(error := r.error, toasts := r.toasts)
              && Announced(s.toasts, r.toasts, "Matching error!", Error)
  {
    match outcome
    case Succeeded(result) =>
      var message := "Your resume matched " + IntDecimal(result.score) + "% for this job!";
      Say(s.(report := Some(result)), message, ScoreSeverity(result.score), now)
    case Failed(detail) =>
      Say(s.(error := OrElse(detail, "Match error")), "Matching error!", Error, now)
  }

  /** A submitted match that fails shows no report at all, even if one was
      shown before, and ends with an error notification. */
  lemma FailedMatchShowsNothing(s: State, detail: string, now: int)
    ensures CompleteMatch(BeginMatch(s).state, Failed(detail), now).report == None
    ensures Latest(CompleteMatch(BeginMatch(s).state, Failed(detail), now).toasts).severity == Error
  {
  }

  /** A successful match is announced as a success exactly when the score
      exceeds 50, and as information otherwise. */
  lemma MatchSeverity(s: State, result: MatchResult, now: int)
    ensures Latest(CompleteMatch(s, Succeeded(result), now).toasts).severity == Success <==> result.score > 50
    ensures Latest(CompleteMatch(s, Succeeded(result), now).toasts).severity == Info <==> result.score <= 50
  {
  }

  // ----- Job board -----

  /** The job list response. */
  function CompleteLoadJobs(s: State, outcome: Outcome<seq<Job>>, now: int): (r: State)
    ensures outcome.Succeeded? ==>
              && r == s.(jobs := outcome.value, toasts := r.toasts)
              && Announced(s.toasts, r.toasts, "Loaded job listings.", Info)
    ensures outcome.Failed? ==> OnlyAnnounced(s, r, "Failed to load jobs.", Error)
  {
    match outcome
    case Succeeded(jobs) => Say(s.(jobs := jobs), "Loaded job listings.", Info, now)
    case Failed(_) => Say(s, "Failed to load jobs.", Error, now)
  }

  /** The Post Job button. With any of the three fields empty the only
      effect is a warning and nothing is sent; otherwise the title, the
      description and the comma-split, trimmed skills (empty pieces kept)
      are sent and the state is untouched. */
  function BeginPostJob(s: State, now: int): (d: Dispatch)
    ensures d.request.None? <==> (s.addJob.title == "" || s.addJob.description == "" || s.addJob.skills == "")
    ensures d.request.None? ==> OnlyAnnounced(s, d.state, "Fill all fields to post a job.", Warning)
    ensures d.request.Some? ==>
              && d.state == s
              && d.request.value.PostJobRequest?
              && d.request.value.title == s.addJob.title
              && d.request.value.description == s.addJob.description
              && d.request.value.skills == JobSkills(s.addJob.skills)
              && |d.request.value.skills| == multiset(s.addJob.skills)[','] + 1
              && (forall i :: 0 <= i < |d.request.value.skills| ==>
                    IsTrimmed(d.request.value.skills[i]) && ',' !in d.request.value.skills[i])
  {
    var form := s.addJob;
    if form.title == "" || form.description == "" || form.skills == "" then
      Dispatch(Say(s, "Fill all fields to post a job.", Warning, now), None)
    else
      Dispatch(s, Some(PostJobRequest(form.title, form.description, JobSkills(form.skills))))
  }

  /** A job-post form filled with trimmed, comma-free skills typed as a
      ", "-separated list sends exactly those skills, empty ones included,
      as long as the field itself is not empty. */
  lemma PostJobSendsTypedSkills(s: State, skills: seq<string>, now: int)
    requires s.addJob.title != "" && s.addJob.description != ""
    requires |skills| >= 1
    requires forall i :: 0 <= i < |skills| ==> IsTrimmed(skills[i]) && ',' !in skills[i]
    requires s.addJob.skills == Join(skills, ", ") && s.addJob.skills != ""
    ensures BeginPostJob(s, now).request == Some(PostJobRequest(s.addJob.title, s.addJob.description, skills))
  {
    JobSkillsRoundTrip(skills);
  }

  /** A non-empty, whitespace-only skills field passes validation and
      posts a job whose only skill is the empty string. */
  lemma BlankSkillsArePosted(s: State, now: int)
    requires s.addJob.title != "" && s.addJob.description != ""
    requires s.addJob.skills != "" && AllWhitespace(s.addJob.skills)
    ensures BeginPostJob(s, now).request == Some(PostJobRequest(s.addJob.title, s.addJob.description, [""]))
  {
    var field := s.addJob.skills;
    assert forall i :: 0 <= i < |field| ==> field[i] != ',';
    assert ',' !in multiset(field);
    var pieces := Split(field, ',');
    assert |pieces| == 1;
    assert pieces[0] == field;
    TrimUnique(field, [], 0);
    assert JobSkills(field) == [""];
  }

  /** The post response: on success clear the form, reload the job list
      and announce success; on failure only announce the error. */
  function CompletePostJob(s: State, outcome: Outcome<()>, now: int): (d: Dispatch)
    ensures outcome.Succeeded? ==>
              && d.state.addJob == EmptyJobForm
              && d.state == s.(addJob := EmptyJobForm, toasts := d.state.toasts)
              && Announced(s.toasts, d.state.toasts, "Job posted successfully!", Success)
              && d.request == Some(LoadJobsRequest)
    ensures outcome.Failed? ==> OnlyAnnounced(s, d.state, "Failed to post job.", Error) && d.request == None
  {
    match outcome
    case Succeeded(_) =>
      Dispatch(Say(s.(addJob := EmptyJobForm), "Job posted successfully!", Success, now), Some(LoadJobsRequest))
    case Failed(_) =>
      Dispatch(Say(s, "Failed to post job.", Error, now), None)
  }

  // ----- Applying -----

  /** A job's Apply Now button: open the dialog for that job and remember
      its id. */
  function OpenApply(s: State, job: Job): (r: State)
    ensures r.dialog.open && r.dialog.selected == Some(job) && r.applyJobId == job.id
    ensures r == s.(dialog := r.dialog, applyJobId := r.applyJobId)
  {
    s.(dialog := ApplyDialog(true, Some(job)), applyJobId := job.id)
  }

  /** The dialog's Cancel button or its `onClose`: hide it, keeping the
      selected job and the typed resume. */
  function CancelApply(s: State): (r: State)
    ensures !r.dialog.open
    ensures r.dialog.selected == s.dialog.selected
    ensures r == s.(dialog := r.dialog)
  {
    s.(dialog := s.dialog.(open := false))
  }

  /** The Send Application button: validate, then close the dialog. With
      an empty job id or resume the only other effect is a warning and
      nothing is sent. */
  function SendApplication(s: State, now: int): (d: Dispatch)
    ensures !d.state.dialog.open && d.state.dialog.selected == s.dialog.selected
    ensures d.request.None? <==> (s.applyJobId == "" || s.applyResume == "")
    ensures d.request.None? ==> OnlyAnnounced(CancelApply(s), d.state, "Fill all fields to apply.", Warning)
    ensures d.request.Some? ==>
              && d.state == CancelApply(s)
              && d.request == Some(ApplyRequest(s.applyJobId, s.applyResume))
  {
    if s.applyJobId == "" || s.applyResume == "" then
      Dispatch(CancelApply(Say(s, "Fill all fields to apply.", Warning, now)), None)
    else
      Dispatch(CancelApply(s), Some(ApplyRequest(s.applyJobId, s.applyResume)))
  }

  /** The apply response: on success confirm, clear the job id and resume
      and announce success; on failure only announce the error. */
  function CompleteApply(s: State, outcome: Outcome<()>, now: int): (r: State)
    ensures outcome.Succeeded? ==>
              && r.applyJobId == "" && r.applyResume == ""
              && r.applyMsg == "Application sent!"
              && r == s.(applyJobId := "", applyResume := "", applyMsg := r.applyMsg, toasts := r.toasts)
              && Announced(s.toasts, r.toasts, "Your application was submitted!", Success)
    ensures outcome.Failed? ==> OnlyAnnounced(s, r, "Failed to submit application.", Error)
  {
    match outcome
    case Succeeded(_) =>
      Say(s.(applyMsg := "Application sent!", applyJobId := "", applyResume := ""),
          "Your application was submitted!", Success, now)
    case Failed(_) =>
      Say(s, "Failed to submit application.", Error, now)
  }

  /** After a successful application a second send without retyping is
      refused locally: the job id and resume were cleared. */
  lemma ResendAfterSuccessIsRefused(s: State, now: int, later: int)
    ensures SendApplication(CompleteApply(s, Succeeded(()), now), later).request == None
  {
  }

  // ----- Applications viewer -----

  /** A job's View Applications button: ask for that job's applications;
      nothing changes until the response arrives. */
  function BeginViewApplications(s: State, jobId: string): (d: Dispatch)
    ensures d.state == s && d.request == Some(ApplicationsRequest(jobId))
  {
    Dispatch(s, Some(ApplicationsRequest(jobId)))
  }

  /** The panel a View Applications click ends up showing belongs to the
      job that was clicked: the request carries its id, and a successful
      response opens the panel on that id with the returned list. */
  lemma ViewerShowsClickedJob(s: State, job: Job, apps: seq<Application>, now: int)
    ensures var d := BeginViewApplications(s, job.id);
            && d.request.Some? && d.request.value.ApplicationsRequest?
            && var r := CompleteViewApplications(d.state, d.request.value.jobId, Succeeded(apps), now);
            && r.viewer.show && r.viewer.jobId == job.id && r.viewer.apps == apps
  {
  }

  /** The applications response for `jobId`: on success open the panel on
      exactly those applications; on failure only announce the error. */
  function CompleteViewApplications(s: State, jobId: string, outcome: Outcome<seq<Application>>, now: int): (r: State)
    ensures outcome.Succeeded? ==>
              && r.viewer == Viewer(true, jobId, outcome.value)
              && r == s.(viewer := r.viewer, toasts := r.toasts)
              && Announced(s.toasts, r.toasts, "Loaded applications for job.", Info)
    ensures outcome.Failed? ==> OnlyAnnounced(s, r, "Failed to load applications.", Error)
  {
    match outcome
    case Succeeded(apps) => Say(s.(viewer := OpenViewer(jobId, apps)), "Loaded applications for job.", Info, now)
    case Failed(_) => Say(s, "Failed to load applications.", Error, now)
  }

  /** The panel's Close button. */
  function CloseApplications(s: State): (r: State)
    ensures r.viewer == ClosedViewer
    ensures r == s.(viewer := ClosedViewer)
  {
    s.(viewer := CloseViewer(s.viewer))
  }

  /** Opening the panel and closing it again leaves the state as before,
      apart from the notification that announced the load. */
  lemma OpenThenCloseViewer(s: State, jobId: string, apps: seq<Application>, now: int)
    requires s.viewer == ClosedViewer
    ensures CloseApplications(CompleteViewApplications(s, jobId, Succeeded(apps), now))
            == s.(toasts := Notify(s.toasts, "Loaded applications for job.", Info, now))
  {
  }
}

=== FILE: common.dfy ===
/** Small shared vocabulary: an optional value and the subsequence order. */
module Common {

  /** A slot that may be empty, as React state initialised to `null`. */
  datatype Option<T> = None | Some(value: T)

  /** `a` can be obtained from `b` by deleting elements, keeping the order
      of the rest. */
  predicate IsSubsequence<T(==)>(a: seq<T>, b: seq<T>)
    decreases |b|
  {
    if a == [] then true
    else if b == [] then false
    else if a[0] == b[0] then IsSubsequence(a[1..], b[1..])
    else IsSubsequence(a, b[1..])
  }
}

=== FILE: navigation.dfy ===
/** The navigation slots of the `App` component: the current page, the
    side drawer, the session (bearer token and username), the apply dialog
    and the applications viewer, and the role gates that decide which
    job-board controls are rendered. The gates only decide what is shown;
    the backend is the authority that enforces roles. */
module Navigation {
  import opened Common

  datatype Page = Login | Reset | ProfilePage | Matcher | Jobs | Dashboard | Admin

  datatype DrawerEntry = DrawerEntry(caption: string, page: Page)

  /** The entries of the side drawer, top to bottom. */
  const DrawerEntries: seq<DrawerEntry> := [
    DrawerEntry("Jobs", Jobs),
    DrawerEntry("Profile", ProfilePage),
    DrawerEntry("Matcher", Matcher),
    DrawerEntry("Dashboard", Dashboard),
    DrawerEntry("Admin", Admin)
  ]

  datatype Nav = Nav(page: Page, drawerOpen: bool)

  /** The menu button. */
  function OpenDrawer(n: Nav): (r: Nav)
    ensures r.drawerOpen && r.page == n.page
  {
    n.(drawerOpen := true)
  }

  /** The drawer's `onClose` (a click outside it). */
  function CloseDrawer(n: Nav): (r: Nav)
    ensures !r.drawerOpen && r.page == n.page
  {
    n.(drawerOpen := false)
  }

  /** Clicking a drawer entry: go to its page and close the drawer. */
  function SelectEntry(n: Nav, entry: DrawerEntry): (r: Nav)
    ensures r.page == entry.page && !r.drawerOpen
  {
    Nav(entry.page, false)
  }

  /** An entry is drawn in the secondary colour when its page is current. */
  predicate Highlighted(n: Nav, entry: DrawerEntry) {
    n.page == entry.page
  }

  /** Selecting an entry twice is selecting it once. */
  lemma SelectIdempotent(n: Nav, entry: DrawerEntry)
    ensures SelectEntry(SelectEntry(n, entry), entry) == SelectEntry(n, entry)
  {
  }

  /** After a selection exactly the chosen drawer entry is highlighted:
      the drawer's pages are pairwise distinct. */
  lemma SelectHighlightsChoice(n: Nav, i: nat)
    requires i < |DrawerEntries|
    ensures forall j :: 0 <= j < |DrawerEntries| ==>
              (Highlighted(SelectEntry(n, DrawerEntries[i]), DrawerEntries[j]) <==> j == i)
  {
  }

  /** Some drawer entry leads to `p`. */
  predicate InDrawer(p: Page) {
    exists e :: e in DrawerEntries && e.page == p
  }

  /** The drawer reaches every page except the login and password-reset
      pages. */
  lemma DrawerPages()
    ensures forall p: Page :: InDrawer(p) <==> p != Login && p != Reset
  {
    assert DrawerEntries[0].page == Jobs;
    assert DrawerEntries[1].page == ProfilePage;
    assert DrawerEntries[2].page == Matcher;
    assert DrawerEntries[3].page == Dashboard;
    assert DrawerEntries[4].page == Admin;
  }

  /** The bearer token (empty when signed out) and the username typed into
      the login form. */
  datatype Session = Session(token: string, username: string)

  /** The username that unlocks the administrative controls. */
  const AdminName := "admin"

  /** The "Post a Job" form and the per-job "View Applications" button
      (`token && username === 'admin'`). */
  predicate ShowsAdminControls(s: Session) {
    s.token != "" && s.username == AdminName
  }

  /** The per-job "Apply Now" button (`token && username !== 'admin'`). */
  predicate ShowsApplyControl(s: Session) {
    s.token != "" && s.username != AdminName
  }

  /** Signed out, no gated control shows; signed in, exactly one of the
      administrative controls and the apply control shows, chosen by the
      username. */
  lemma GatesPartition(s: Session)
    ensures s.token == "" ==> !ShowsAdminControls(s) && !ShowsApplyControl(s)
    ensures s.token != "" ==> (ShowsAdminControls(s) <==> !ShowsApplyControl(s))
    ensures s.token != "" ==> (ShowsAdminControls(s) <==> s.username == AdminName)
  {
  }

  /** A job posting as the job board lists it. */
  datatype Job = Job(id: string, title: string, description: string, skills: seq<string>, location: Option<string>)

  /** An application as the applications viewer lists it. */
  datatype Application = Application(id: string, applicant: string, appliedAt: string, resumeText: string)

  /** The admin's applications panel; it is rendered whenever `show` holds,
      whatever the page. */
  datatype Viewer = Viewer(show: bool, jobId: string, apps: seq<Application>)

  const ClosedViewer := Viewer(false, "", [])

  /** A successful applications fetch for `jobId` opens the panel on
      exactly that job's applications. */
  function OpenViewer(jobId: string, apps: seq<Application>): (r: Viewer)
    ensures r.show && r.jobId == jobId && r.apps == apps
  {
    Viewer(true, jobId, apps)
  }

  /** The panel's Close button: hidden, no job, no applications. */
  function CloseViewer(v: Viewer): (r: Viewer)
    ensures !r.show && r.jobId == "" && r.apps == []
  {
    ClosedViewer
  }

  /** Closing is idempotent and forgets whatever was open. */
  lemma CloseViewerForgets(v: Viewer, w: Viewer)
    ensures CloseViewer(v) == CloseViewer(w) == CloseViewer(CloseViewer(v))
  {
  }

  /** The apply dialog and the job it was opened for. */
  datatype ApplyDialog = ApplyDialog(open: bool, selected: Option<Job>)
}

=== FILE: notifications.dfy ===
/** The in-app notification list and the single-slot snackbar of the `App`
    component. Every handler announces its outcome through `Notify`, which
    appends an entry to the list and shows its message in the snackbar.
    The list is drained from the front by an expiry timer and entries can
    be dismissed individually by id.

    Wall-clock time is not modelled: the timer firing is the explicit event
    `Tick`, which stands for 3.5 seconds passing without any other change
    to the list (every change re-arms the timer), and entry ids, which the
    source takes from the clock, are parameters. */
module Notifications {
  import opened Common

  datatype Severity = Info | Success | Warning | Error

  datatype Notification = Notification(message: string, severity: Severity, id: int)

  /** The notification list, oldest first, and the snackbar slot. */
  datatype Toasts = Toasts(queue: seq<Notification>, snackbarOpen: bool, snackbarMessage: string)

  /** `after` is `before` with one entry carrying `message` and `severity`
      appended at the end of the list, every earlier entry in place, and
      the snackbar open and showing that message. */
  predicate Announced(before: Toasts, after: Toasts, message: string, severity: Severity) {
    && |after.queue| == |before.queue| + 1
    && after.queue[..|before.queue|] == before.queue
    && after.queue[|before.queue|].message == message
    && after.queue[|before.queue|].severity == severity
    && after.snackbarOpen
    && after.snackbarMessage == message
  }

  /** The newest entry of a non-empty list. */
  function Latest(t: Toasts): Notification
    requires t.queue != []
  {
    t.queue[|t.queue| - 1]
  }

  /** `notify(message, severity)` with `id` the creation time. */
  function Notify(t: Toasts, message: string, severity: Severity, id: int): (r: Toasts)
    ensures Announced(t, r, message, severity)
    ensures Latest(r) == Notification(message, severity, id)
  {
    var r := Toasts(t.queue + [Notification(message, severity, id)], true, message);
    assert r.queue[..|t.queue|] == t.queue;
    r
  }

  /** The expiry timer firing: `n.slice(1)`. It is only armed while the
      list is non-empty; then exactly the oldest entry leaves. The snackbar
      has a timer of its own and is not touched. */
  function Expire(t: Toasts): (r: Toasts)
    ensures t.queue != [] ==> [t.queue[0]] + r.queue == t.queue
    ensures t.queue == [] ==> r == t
    ensures r.snackbarOpen == t.snackbarOpen && r.snackbarMessage == t.snackbarMessage
  {
    if t.queue == [] then t
    else
      assert t.queue == [t.queue[0]] + t.queue[1..];
      t.(queue := t.queue[1..])
  }

  /** How many entries carry `id` (ids come from the clock and may repeat). */
  function CountId(q: seq<Notification>, id: int): nat {
    if q == [] then 0
    else (if q[0].id == id then 1 else 0) + CountId(q[1..], id)
  }

  /** The entries that carry `id`, in list order. */
  function WithId(q: seq<Notification>, id: int): seq<Notification> {
    if q == [] then []
    else (if q[0].id == id then [q[0]] else []) + WithId(q[1..], id)
  }

  /** `q.filter(n => n.id !== id)`: exactly the entries with another id
      survive, in their original order, and the list shrinks by the number
      of entries that carried `id`. */
  function Without(q: seq<Notification>, id: int): (r: seq<Notification>)
    ensures forall n :: n in r ==> n in q && n.id != id
    ensures forall n :: n in q && n.id != id ==> n in r
    ensures IsSubsequence(r, q)
    ensures |r| == |q| - CountId(q, id)
  {
    if q == [] then []
    else
      var rest := Without(q[1..], id);
      assert forall n :: n in q ==> n == q[0] || n in q[1..];
      if q[0].id == id then
        assert rest == [] || rest[0] != q[0];
        rest
      else
        var r := [q[0]] + rest;
        assert r[1..] == rest;
        r
  }

  /** Closing one alert of the list (the `onClose` of entry `id`). */
  function Dismiss(t: Toasts, id: int): (r: Toasts)
    ensures forall i :: 0 <= i < |r.queue| ==> r.queue[i].id != id
    ensures forall n :: n in t.queue && n.id != id ==> n in r.queue
    ensures IsSubsequence(r.queue, t.queue)
    ensures |r.queue| == |t.queue| - CountId(t.queue, id)
    ensures r.snackbarOpen == t.snackbarOpen && r.snackbarMessage == t.snackbarMessage
  {
    var r := t.(queue := Without(t.queue, id));
    assert forall i :: 0 <= i < |r.queue| ==> r.queue[i] in r.queue;
    r
  }

  /** `handleCloseSnackbar`: hides the snackbar, keeps its text and the list. */
  function CloseSnackbar(t: Toasts): (r: Toasts)
    ensures !r.snackbarOpen
    ensures r.queue == t.queue && r.snackbarMessage == t.snackbarMessage
  {
    t.(snackbarOpen := false)
  }

  /** Dismissal splits the list into the survivors and the entries with
      the id: together they hold every entry exactly as often as before. */
  lemma {:induction false} DismissPartition(q: seq<Notification>, id: int)
    ensures multiset(q) == multiset(Without(q, id)) + multiset(WithId(q, id))
  {
    if q != [] {
      var head, tail := q[0], q[1..];
      var kept, gone := Without(tail, id), WithId(tail, id);
      DismissPartition(tail, id);
      assert q == [head] + tail;
      assert multiset(q) == multiset{head} + multiset(kept) + multiset(gone);
      if head.id == id {
        assert Without(q, id) == kept;
        assert WithId(q, id) == [head] + gone;
        assert multiset([head] + gone) == multiset{head} + multiset(gone);
      } else {
        assert Without(q, id) == [head] + kept;
        assert WithId(q, id) == gone;
        assert multiset([head] + kept) == multiset{head} + multiset(kept);
      }
    }
  }

  /** Everything that can happen to the list and the snackbar. */
  datatype Event =
    | Posted(message: string, severity: Severity, id: int)
    | Tick
    | Dismissed(id: int)
    | SnackbarClosed

  /** The entry an event posts, if any. */
  function PostedEntry(e: Event): seq<Notification> {
    if e.Posted? then [Notification(e.message, e.severity, e.id)] else []
  }

  /** The entries a run of events posts, in order of posting. */
  function PostedBy(events: seq<Event>): seq<Notification> {
    if events == [] then [] else PostedEntry(events[0]) + PostedBy(events[1..])
  }

  predicate NoDismissals(events: seq<Event>) {
    forall i :: 0 <= i < |events| ==> !events[i].Dismissed?
  }

  /** One event; `gone` lists the entries it removed. */
  datatype Replay = Replay(toasts: Toasts, gone: seq<Notification>)

  function Step(t: Toasts, e: Event): Replay {
    match e
    case Posted(m, s, id) => Replay(Notify(t, m, s, id), [])
    case Tick => Replay(Expire(t), if t.queue == [] then [] else [t.queue[0]])
    case Dismissed(id) => Replay(Dismiss(t, id), WithId(t.queue, id))
    case SnackbarClosed => Replay(CloseSnackbar(t), [])
  }

  /** A run of events from `t`: the final state and every entry removed on
      the way, in order of removal. */
  function Run(t: Toasts, events: seq<Event>): Replay
    decreases |events|
  {
    if events == [] then Replay(t, [])
    else
      var first := Step(t, events[0]);
      var rest := Run(first.toasts, events[1..]);
      Replay(rest.toasts, first.gone + rest.gone)
  }

  /** A single step without dismissal: what it removed followed by what is
      left is what was there followed by what it posted. */
  lemma StepIsFifo(t: Toasts, e: Event)
    requires !e.Dismissed?
    ensures Step(t, e).gone + Step(t, e).toasts.queue == t.queue + PostedEntry(e)
  {
  }

  /** Sequence bookkeeping for gluing a step onto the rest of a run. */
  lemma Splice<T>(g1: seq<T>, g2: seq<T>, q1: seq<T>, q2: seq<T>, s: seq<T>, p1: seq<T>, p2: seq<T>)
    requires g1 + q1 == s + p1
    requires g2 + q2 == q1 + p2
    ensures (g1 + g2) + q2 == s + (p1 + p2)
  {
    calc {
      (g1 + g2) + q2;
      g1 + (g2 + q2);
      g1 + (q1 + p2);
      (g1 + q1) + p2;
      (s + p1) + p2;
      s + (p1 + p2);
    }
  }

  /** First in, first out: without dismissals, the entries that expired
      followed by those still listed are exactly the entries there were at
      the start followed by those posted, so entries leave in the order
      they arrived and the departures are a prefix of the arrivals. */
  lemma {:induction false} RunIsFifo(t: Toasts, events: seq<Event>)
    requires NoDismissals(events)
    ensures Run(t, events).gone + Run(t, events).toasts.queue == t.queue + PostedBy(events)
    ensures Run(t, events).gone <= t.queue + PostedBy(events)
    decreases |events|
  {
    var r := Run(t, events);
    if events != [] {
      var first := Step(t, events[0]);
      var rest := Run(first.toasts, events[1..]);
      assert r == Replay(rest.toasts, first.gone + rest.gone);
      assert !events[0].Dismissed?;
      assert NoDismissals(events[1..]);
      RunIsFifo(first.toasts, events[1..]);
      StepIsFifo(t, events[0]);
      assert PostedBy(events) == PostedEntry(events[0]) + PostedBy(events[1..]);
      Splice(first.gone, rest.gone, first.toasts.queue, rest.toasts.queue,
             t.queue, PostedEntry(events[0]), PostedBy(events[1..]));
    }
    assert (r.gone + r.toasts.queue)[..|r.gone|] == r.gone;
  }

  /** A single step neither loses nor invents an entry. */
  lemma StepConserves(t: Toasts, e: Event)
    ensures multiset(t.queue) + multiset(PostedEntry(e))
         == multiset(Step(t, e).toasts.queue) + multiset(Step(t, e).gone)
  {
    match e
    case Posted(m, s, id) =>
    case Tick =>
      if t.queue != [] {
        assert t.queue == [t.queue[0]] + Step(t, e).toasts.queue;
      }
    case Dismissed(id) =>
      DismissPartition(t.queue, id);
    case SnackbarClosed =>
  }

  /** Multiset bookkeeping for gluing a step onto the rest of a run. */
  lemma MultisetSplice<T>(s: multiset<T>, p1: multiset<T>, p2: multiset<T>,
                          q1: multiset<T>, g1: multiset<T>, q2: multiset<T>, g2: multiset<T>)
    requires s + p1 == q1 + g1
    requires q1 + p2 == q2 + g2
    ensures s + (p1 + p2) == q2 + (g1 + g2)
  {
    calc {
      s + (p1 + p2);
      (s + p1) + p2;
      (q1 + g1) + p2;
      (q1 + p2) + g1;
      (q2 + g2) + g1;
      q2 + (g1 + g2);
    }
  }

  /** No entry is lost or invented: what was listed at the start plus what
      was posted is, as a multiset, what is listed at the end plus what was
      removed (by expiry or dismissal). */
  lemma {:induction false} RunConserves(t: Toasts, events: seq<Event>)
    ensures multiset(t.queue) + multiset(PostedBy(events))
         == multiset(Run(t, events).toasts.queue) + multiset(Run(t, events).gone)
    decreases |events|
  {
    if events != [] {
      var r := Run(t, events);
      var first := Step(t, events[0]);
      var rest := Run(first.toasts, events[1..]);
      assert r == Replay(rest.toasts, first.gone + rest.gone);
      RunConserves(first.toasts, events[1..]);
      StepConserves(t, events[0]);
      assert PostedBy(events) == PostedEntry(events[0]) + PostedBy(events[1..]);
      MultisetSplice(multiset(t.queue), multiset(PostedEntry(events[0])), multiset(PostedBy(events[1..])),
                     multiset(first.toasts.queue), multiset(first.gone),
                     multiset(rest.toasts.queue), multiset(rest.gone));
    }
  }

  /** Hence the list holds exactly the starting entries plus the posted ones
      minus the removed ones, never more than the starting ones plus the
      posted ones. */
  lemma RunLength(t: Toasts, events: seq<Event>)
    ensures |Run(t, events).toasts.queue| == |t.queue| + |PostedBy(events)| - |Run(t, events).gone|
    ensures |Run(t, events).toasts.queue| <= |t.queue| + |PostedBy(events)|
  {
    var r := Run(t, events);
    RunConserves(t, events);
    assert |multiset(t.queue) + multiset(PostedBy(events))| == |multiset(r.toasts.queue) + multiset(r.gone)|;
  }

  /** The expiry timer left alone: it re-arms after every removal while the
      list is non-empty, so it empties the list, removing the entries
      oldest first. */
  method DrainByTimer(t: Toasts) returns (expired: seq<Notification>, r: Toasts)
    ensures expired == t.queue
    ensures r.queue == []
    ensures r.snackbarOpen == t.snackbarOpen && r.snackbarMessage == t.snackbarMessage
  {
    expired := [];
    r := t;
    while r.queue != []
      invariant expired + r.queue == t.queue
      invariant r.snackbarOpen == t.snackbarOpen && r.snackbarMessage == t.snackbarMessage
      decreases |r.queue|
    {
      var head, next := r.queue[0], Expire(r);
      assert [head] + next.queue == r.queue;
      assert (expired + [head]) + next.queue == expired + ([head] + next.queue);
      expired, r := expired + [head], next;
    }
  }
}

=== FILE: profile.dfy ===
/** The `Profile` component: the signed-in user's profile, an edit mode, a
    status message and the free-text skills field. The profile fetch fills
    the skills field with the stored skills joined by ", "; saving parses
    the field back with the profile variant of the skill parser. Both
    requests are inputs to the model: a fetch arrives as `Loaded`, a save
    is `BeginSave` followed by `CompleteSave` with the response. */
module Profile {
  import opened Text
  import opened Skills

  datatype ProfileData = ProfileData(username: string, name: string, bio: string, skills: seq<string>)

  datatype ProfileView = ProfileView(profile: ProfileData, editMode: bool, message: string, skillsInput: string)

  /** The editable text fields of the profile form. */
  datatype Field = Name | Bio

  /** How a save request ended: a 2xx response, another response, or a
      rejected fetch (which the handler does not catch). */
  datatype SaveOutcome = Saved | Rejected | Threw

  /** A skill as the save path produces it. */
  predicate WellFormedSkill(s: string) {
    s != "" && IsTrimmed(s) && ',' !in s
  }

  /** The profile fetch succeeding: show the data and put its skills, joined
      by ", ", into the skills field, so that the field parses back to the
      stored skills whenever they have the shape the save path produces. */
  function Loaded(v: ProfileView, data: ProfileData): (r: ProfileView)
    ensures r.profile == data && r.skillsInput == Join(data.skills, ", ")
    ensures r == v.(profile := data, skillsInput := r.skillsInput)
    ensures (forall i :: 0 <= i < |data.skills| ==> WellFormedSkill(data.skills[i])) ==>
              ProfileSkills(r.skillsInput) == data.skills
  {
    assert (forall i :: 0 <= i < |data.skills| ==> WellFormedSkill(data.skills[i])) ==>
             ProfileSkills(Join(data.skills, ", ")) == data.skills by {
      if forall i :: 0 <= i < |data.skills| ==> WellFormedSkill(data.skills[i]) {
        ProfileSkillsRoundTrip(data.skills);
      }
    }
    v.(profile := data, skillsInput := Join(data.skills, ", "))
  }

  /** The Edit Profile button. */
  function StartEditing(v: ProfileView): (r: ProfileView)
    ensures r.editMode && r == v.(editMode := true)
  {
    v.(editMode := true)
  }

  /** The Cancel button: the handler itself only leaves edit mode and
      keeps whatever was typed. The profile fetch it re-triggers then
      replaces the typed text once it returns (that is `Loaded`). */
  function CancelEditing(v: ProfileView): (r: ProfileView)
    ensures !r.editMode && r.profile == v.profile && r.skillsInput == v.skillsInput
    ensures r == v.(editMode := false)
  {
    v.(editMode := false)
  }

  /** Typing into the name or bio field changes that field only. */
  function Edit(v: ProfileView, field: Field, value: string): (r: ProfileView)
    ensures field == Name ==> r.profile.name == value && r.profile.bio == v.profile.bio
    ensures field == Bio ==> r.profile.bio == value && r.profile.name == v.profile.name
    ensures r.profile.username == v.profile.username && r.profile.skills == v.profile.skills
    ensures r == v.(profile := r.profile)
  {
    match field
    case Name => v.(profile := v.profile.(name := value))
    case Bio => v.(profile := v.profile.(bio := value))
  }

  /** Typing into the skills field. */
  function EditSkills(v: ProfileView, input: string): (r: ProfileView)
    ensures r.skillsInput == input
    ensures r == v.(skillsInput := r.skillsInput)
  {
    v.(skillsInput := input)
  }

  /** The Save button: the profile to send, with the skills field parsed
      into non-empty, trimmed, comma-free skills and everything else as
      shown. */
  function BeginSave(v: ProfileView): (update: ProfileData)
    ensures update.username == v.profile.username
    ensures update.name == v.profile.name && update.bio == v.profile.bio
    ensures update.skills == ProfileSkills(v.skillsInput)
    ensures forall i :: 0 <= i < |update.skills| ==> WellFormedSkill(update.skills[i])
  {
    v.profile.(skills := ProfileSkills(v.skillsInput))
  }

  /** The save response: on success the sent profile becomes the shown one
      and edit mode ends; on an error status only the message changes; a
      rejected fetch changes nothing. The handler keeps the skills text;
      leaving edit mode re-triggers the profile fetch, whose `Loaded` then
      replaces it. */
  function CompleteSave(v: ProfileView, update: ProfileData, outcome: SaveOutcome): (r: ProfileView)
    ensures outcome == Saved ==>
              && r.profile == update && !r.editMode && r.message == "Profile updated!"
              && r.skillsInput == v.skillsInput
    ensures outcome == Rejected ==> r == v.(message := "Error updating profile")
    ensures outcome == Threw ==> r == v
  {
    match outcome
    case Saved => v.(message := "Profile updated!", editMode := false, profile := update)
    case Rejected => v.(message := "Error updating profile")
    case Threw => v
  }

  /** Saving a freshly loaded profile without touching the form sends the
      loaded profile back unchanged, provided its skills have the shape the
      save path produces; and a successful save shows exactly that profile. */
  lemma LoadThenSaveIsIdentity(v: ProfileView, data: ProfileData)
    requires forall i :: 0 <= i < |data.skills| ==> WellFormedSkill(data.skills[i])
    ensures BeginSave(Loaded(v, data)) == data
    ensures CompleteSave(Loaded(v, data), BeginSave(Loaded(v, data)), Saved).profile == data
  {
  }

  /** Saving is stable: a profile that was saved and then loaded again saves
      to the same profile. */
  lemma SaveIsStable(v: ProfileView, w: ProfileView)
    ensures BeginSave(Loaded(w, BeginSave(v))) == BeginSave(v)
  {
    LoadThenSaveIsIdentity(w, BeginSave(v));
  }
}

=== FILE: skills.dfy ===
/** Parsing of the comma-separated skill lists typed into the profile
    editor and into the admin's job-post form. Both split on "," and trim
    every piece; the profile path then drops the empty pieces, the job-post
    path keeps them. */
module Skills {
  import opened Common
  import opened Text

  /** `pieces.map(s => s.trim())` */
  function TrimEach(pieces: seq<string>): seq<string> {
    seq(|pieces|, i requires 0 <= i < |pieces| => Trim(pieces[i]))
  }

  /** `xs.filter(s => s)`: keeps exactly the non-empty strings, in order,
      each as often as it occurs. */
  function DropEmpty(xs: seq<string>): (r: seq<string>)
    ensures forall i :: 0 <= i < |r| ==> r[i] != ""
    // Implied by the subsequence and length clauses; stated for readers.
    ensures forall x :: x in xs && x != "" ==> x in r
    ensures IsSubsequence(r, xs)
    ensures (forall i :: 0 <= i < |xs| ==> xs[i] != "") ==> r == xs
    ensures |r| == |xs| - multiset(xs)[""]
  {
    if xs == [] then []
    else
      var rest := DropEmpty(xs[1..]);
      assert forall x :: x in xs ==> x == xs[0] || x in xs[1..];
      assert xs == [xs[0]] + xs[1..];
      if xs[0] == "" then
        assert rest == [] || rest[0] != xs[0];
        rest
      else
        var r := [xs[0]] + rest;
        assert r[1..] == rest;
        assert (forall i :: 0 <= i < |xs| ==> xs[i] != "") ==> xs == [xs[0]] + xs[1..];
        r
  }

  /** The job-post path, `skills.split(',').map(s => s.trim())`: one entry
      per comma-separated piece (commas plus one), each trimmed and
      comma-free, possibly empty. */
  function JobSkills(input: string): (skills: seq<string>)
    ensures |skills| == multiset(input)[','] + 1
    ensures forall i :: 0 <= i < |skills| ==> IsTrimmed(skills[i]) && ',' !in skills[i]
    ensures forall i :: 0 <= i < |skills| ==> skills[i] == Trim(Split(input, ',')[i])
  {
    var pieces := Split(input, ',');
    forall i | 0 <= i < |pieces|
      ensures ',' !in Trim(pieces[i])
    {
      TrimKeepsAbsent(pieces[i], ',');
    }
    TrimEach(pieces)
  }

  /** The profile save path, `skillsInput.split(",").map(s => s.trim())
      .filter(s => s)`: the non-empty entries of the job-post parse, in
      input order, so every skill is non-empty, trimmed and comma-free. */
  function ProfileSkills(input: string): (skills: seq<string>)
    ensures forall i :: 0 <= i < |skills| ==> skills[i] != "" && IsTrimmed(skills[i]) && ',' !in skills[i]
    ensures IsSubsequence(skills, JobSkills(input))
    ensures forall x :: x in JobSkills(input) && x != "" ==> x in skills
    // Implied by the length clause below and that of `JobSkills`; stated for readers.
    ensures |skills| <= multiset(input)[','] + 1
    ensures |skills| == |JobSkills(input)| - multiset(JobSkills(input))[""]
  {
    var all := JobSkills(input);
    var r := DropEmpty(all);
    SubsequenceLength(r, all);
    forall i | 0 <= i < |r|
      ensures IsTrimmed(r[i]) && ',' !in r[i]
    {
      assert r[i] in r;
      SubsequenceMembers(r, all, r[i]);
    }
    r
  }

  /** A subsequence is no longer than the sequence it is taken from. */
  lemma {:induction false} SubsequenceLength<T>(a: seq<T>, b: seq<T>)
    requires IsSubsequence(a, b)
    ensures |a| <= |b|
    decreases |b|
  {
    if a != [] {
      if a[0] == b[0] {
        SubsequenceLength(a[1..], b[1..]);
      } else {
        SubsequenceLength(a, b[1..]);
      }
    }
  }

  /** Every element of a subsequence occurs in the sequence it is taken from. */
  lemma {:induction false} SubsequenceMembers<T>(a: seq<T>, b: seq<T>, x: T)
    requires IsSubsequence(a, b) && x in a
    ensures x in b
    decreases |b|
  {
    if a[0] == b[0] {
      if x != a[0] {
        assert x in a[1..];
        SubsequenceMembers(a[1..], b[1..], x);
      }
    } else {
      SubsequenceMembers(a, b[1..], x);
    }
  }

  /** Every piece after the first with a blank in front, as `join(", ")`
      leaves them once the commas are split away. */
  function Indent(parts: seq<string>): seq<string> {
    seq(|parts|, i requires 0 <= i < |parts| => " " + parts[i])
  }

  lemma {:induction false} JoinIndent(parts: seq<string>)
    requires |parts| >= 1
    ensures Join(Indent(parts), ",") == " " + Join(parts, ", ")
  {
    if |parts| > 1 {
      assert Indent(parts)[1..] == Indent(parts[1..]);
      JoinIndent(parts[1..]);
    }
  }

  /** The pieces `parts.join(", ").split(",")` yields: all but the first
      part carry one leading blank. */
  function Spaced(parts: seq<string>): seq<string>
    requires |parts| >= 1
  {
    [parts[0]] + Indent(parts[1..])
  }

  /** Joining with ", " is joining the spaced parts with ",". */
  lemma {:induction false} JoinCommaSpace(parts: seq<string>)
    requires |parts| >= 1
    ensures Join(parts, ", ") == Join(Spaced(parts), ",")
  {
    if |parts| > 1 {
      var spaced := Spaced(parts);
      var rest := Join(parts[1..], ", ");
      var indented := Join(Indent(parts[1..]), ",");
      assert spaced[1..] == Indent(parts[1..]);
      JoinIndent(parts[1..]);
      calc {
        Join(spaced, ",");
        parts[0] + "," + indented;
        parts[0] + "," + (" " + rest);
        { assert "," + (" " + rest) == ", " + rest; }
        parts[0] + ", " + rest;
      }
    } else {
      assert Spaced(parts) == parts;
    }
  }

  /** Joining with ", " splits on "," into the parts, all but the first
      carrying one leading blank. */
  lemma SplitCommaSpace(parts: seq<string>)
    requires |parts| >= 1
    requires forall i :: 0 <= i < |parts| ==> ',' !in parts[i]
    ensures Split(Join(parts, ", "), ',') == Spaced(parts)
  {
    var spaced := Spaced(parts);
    JoinCommaSpace(parts);
    forall i | 0 <= i < |spaced|
      ensures ',' !in spaced[i]
    {
      if i > 0 {
        assert spaced[i] == [' '] + parts[i];
      }
    }
    SplitJoin(spaced, ',');
  }

  /** Trimming changes nothing in a list of trimmed strings. */
  lemma TrimEachTrimmed(parts: seq<string>)
    requires forall i :: 0 <= i < |parts| ==> IsTrimmed(parts[i])
    ensures TrimEach(parts) == parts
  {
    forall i | 0 <= i < |parts|
      ensures Trim(parts[i]) == parts[i]
    {
      TrimOfTrimmed(parts[i]);
    }
  }

  /** Trimming removes exactly the blanks `Spaced` added. */
  lemma TrimEachSpaced(parts: seq<string>)
    requires |parts| >= 1
    requires forall i :: 0 <= i < |parts| ==> IsTrimmed(parts[i])
    ensures TrimEach(Spaced(parts)) == parts
  {
    var spaced := Spaced(parts);
    forall i | 0 <= i < |parts|
      ensures Trim(spaced[i]) == parts[i]
    {
      if i == 0 {
        TrimOfTrimmed(parts[0]);
      } else {
        assert spaced[i] == " " + parts[i];
        TrimAfterPadding(" ", parts[i]);
      }
    }
  }

  /** A list of trimmed, comma-free skills typed into the job-post form
      separated by "," or by ", " parses back to the same list. */
  lemma JobSkillsRoundTrip(skills: seq<string>)
    requires |skills| >= 1
    requires forall i :: 0 <= i < |skills| ==> IsTrimmed(skills[i]) && ',' !in skills[i]
    ensures JobSkills(Join(skills, ",")) == skills
    ensures JobSkills(Join(skills, ", ")) == skills
  {
    SplitJoin(skills, ',');
    TrimEachTrimmed(skills);
    SplitCommaSpace(skills);
    TrimEachSpaced(skills);
  }

  /** The profile editor shows the stored skills as `skills.join(", ")`;
      saving that text unchanged stores the same skills again, provided
      each is non-empty, trimmed and comma-free (an empty list included). */
  lemma ProfileSkillsRoundTrip(skills: seq<string>)
    requires forall i :: 0 <= i < |skills| ==> skills[i] != "" && IsTrimmed(skills[i]) && ',' !in skills[i]
    ensures ProfileSkills(Join(skills, ", ")) == skills
  {
    if skills == [] {
      assert JobSkills("") == [""];
    } else {
      JobSkillsRoundTrip(skills);
    }
  }
}

=== FILE: text.dfy ===
/** The JavaScript string operations the client applies to form input:
    `String.prototype.trim`, `String.prototype.split` with a one-character
    separator, and `Array.prototype.join`. Strings are sequences of Unicode
    scalar values; JavaScript's UTF-16 code units differ only outside the
    Basic Multilingual Plane, where no whitespace character lives. */
module Text {

  /** The code points `trim` removes: ECMAScript's WhiteSpace (TAB, VT, FF,
      ZWNBSP and every space separator) and LineTerminator (LF, CR, LS, PS). */
  predicate IsWhitespace(c: char) {
    || c == '\t' || c == '\n' || c == '\U{B}' || c == '\U{C}' || c == '\r'
    || c == ' ' || c == '\U{A0}' || c == '\U{1680}'
    || ('\U{2000}' <= c <= '\U{200A}')
    || c == '\U{2028}' || c == '\U{2029}' || c == '\U{202F}' || c == '\U{205F}'
    || c == '\U{3000}' || c == '\U{FEFF}'
  }

  predicate AllWhitespace(s: string) {
    forall i :: 0 <= i < |s| ==> IsWhitespace(s[i])
  }

  /** Neither end of `s` is whitespace (vacuously so for the empty string). */
  predicate IsTrimmed(s: string) {
    s == [] || (!IsWhitespace(s[0]) && !IsWhitespace(s[|s| - 1]))
  }

  /** `r` sits at offset `k` of `s`, with only whitespace before and after
      it. */
  ghost predicate PaddedAt(s: string, r: string, k: nat) {
    && k + |r| <= |s|
    && s[k..k + |r|] == r
    && (forall i :: 0 <= i < k ==> IsWhitespace(s[i]))
    && (forall i :: k + |r| <= i < |s| ==> IsWhitespace(s[i]))
  }

  /** The length of the longest whitespace prefix of `s`: the index of the
      first other character, or `|s|` when there is none. */
  function LeadingSpace(s: string): (n: nat)
    ensures n <= |s|
    ensures forall i :: 0 <= i < n ==> IsWhitespace(s[i])
    ensures n < |s| ==> !IsWhitespace(s[n])
  {
    if s != [] && IsWhitespace(s[0]) then
      var n := 1 + LeadingSpace(s[1..]);
      assert forall i :: 1 <= i < n ==> s[i] == s[1..][i - 1];
      n
    else
      0
  }

  /** Where the longest whitespace suffix of `s` begins: one past the last
      other character, or 0 when there is none. */
  function ContentEnd(s: string): (e: nat)
    ensures e <= |s|
    ensures forall i :: e <= i < |s| ==> IsWhitespace(s[i])
    ensures e > 0 ==> !IsWhitespace(s[e - 1])
  {
    if s != [] && IsWhitespace(s[|s| - 1]) then
      var e := ContentEnd(s[..|s| - 1]);
      assert forall i :: e <= i < |s| - 1 ==> s[i] == s[..|s| - 1][i];
      e
    else
      |s|
  }

  /** `trim`: the result is trimmed and is `s` stripped of whitespace padding
      on both sides. */
  function Trim(s: string): (r: string)
    ensures IsTrimmed(r)
    ensures exists k :: PaddedAt(s, r, k)
  {
    var k := LeadingSpace(s);
    if k == |s| then
      assert PaddedAt(s, [], k);
      []
    else
      var e := ContentEnd(s);
      assert k < e;
      assert PaddedAt(s, s[k..e], k);
      s[k..e]
  }

  /** Trimming is determined by its contract: a trimmed string padded with
      whitespace on both sides trims back to itself. */
  lemma TrimUnique(s: string, r: string, k: nat)
    requires PaddedAt(s, r, k) && IsTrimmed(r)
    ensures Trim(s) == r
  {
    if r != [] {
      assert s[k] == r[0] && s[k + |r| - 1] == r[|r| - 1];
      assert LeadingSpace(s) == k;
      assert ContentEnd(s) == k + |r|;
    } else {
      assert AllWhitespace(s);
    }
  }

  /** Trimming leaves a string without whitespace ends unchanged. */
  lemma TrimOfTrimmed(s: string)
    requires IsTrimmed(s)
    ensures Trim(s) == s
  {
    assert s[0..|s|] == s;
    TrimUnique(s, s, 0);
  }

  /** Trimming discards any leading whitespace in front of a trimmed string. */
  lemma TrimAfterPadding(pad: string, s: string)
    requires AllWhitespace(pad) && IsTrimmed(s)
    ensures Trim(pad + s) == s
  {
    var t := pad + s;
    assert t[|pad|..|pad| + |s|] == s;
    assert forall i :: 0 <= i < |pad| ==> t[i] == pad[i];
    TrimUnique(t, s, |pad|);
  }

  /** Trimming never introduces a character: what `s` lacks, `Trim(s)` lacks. */
  lemma TrimKeepsAbsent(s: string, c: char)
    requires c !in s
    ensures c !in Trim(s)
  {
    var k: nat :| PaddedAt(s, Trim(s), k);
    var r := Trim(s);
    forall i | 0 <= i < |r|
      ensures r[i] != c
    {
      assert r[i] == s[k + i];
    }
  }

  /** Position of the first occurrence of `c` in `s`. */
  function IndexOf(s: string, c: char): (i: nat)
    requires c in s
    ensures i < |s| && s[i] == c && c !in s[..i]
  {
    if s[0] == c then 0
    else
      var i := 1 + IndexOf(s[1..], c);
      assert s[..i] == [s[0]] + s[1..][..i - 1];
      i
  }

  /** `Array.prototype.join`: the parts with `sep` between neighbours; the
      empty array joins to the empty string. */
  function Join(parts: seq<string>, sep: string): string {
    if |parts| == 0 then ""
    else if |parts| == 1 then parts[0]
    else parts[0] + sep + Join(parts[1..], sep)
  }

  /** `s.split(sep)` for a one-character separator: the maximal
      separator-free pieces, one more than there are separators (so the
      empty string splits into one empty piece), and joining them back with
      the separator gives `s` again. */
  function Split(s: string, sep: char): (pieces: seq<string>)
    ensures |pieces| == multiset(s)[sep] + 1
    ensures forall i :: 0 <= i < |pieces| ==> sep !in pieces[i]
    ensures Join(pieces, [sep]) == s
    decreases |s|
  {
    if sep !in s then
      assert multiset(s)[sep] == 0;
      [s]
    else
      var i := IndexOf(s, sep);
      var rest := Split(s[i + 1..], sep);
      assert s == s[..i] + [sep] + s[i + 1..];
      assert multiset(s) == multiset(s[..i]) + multiset([sep]) + multiset(s[i + 1..]) by {
        calc {
          multiset(s);
          multiset(s[..i] + [sep] + s[i + 1..]);
          multiset(s[..i] + [sep]) + multiset(s[i + 1..]);
        }
      }
      assert multiset(s[..i])[sep] == 0;
      var pieces := [s[..i]] + rest;
      assert pieces[1..] == rest;
      pieces
  }

  /** `IndexOf` finds exactly the first occurrence. */
  lemma {:induction false} IndexOfFirst(s: string, c: char, j: nat)
    requires j < |s| && s[j] == c && c !in s[..j]
    ensures IndexOf(s, c) == j
  {
    if j > 0 {
      assert s[0] == s[..j][0];
      assert s[1..][..j - 1] == s[1..j];
      assert s[..j] == [s[0]] + s[1..j];
      IndexOfFirst(s[1..], c, j - 1);
    }
  }

  /** The separator is found right after a separator-free head. */
  lemma IndexAfterHead(head: string, sep: char, tail: string)
    requires sep !in head
    ensures IndexOf(head + [sep] + tail, sep) == |head|
  {
    var s := head + [sep] + tail;
    assert s[..|head|] == head;
    IndexOfFirst(s, sep, |head|);
  }

  /** Splitting at the first separator: a separator-free head becomes the
      first piece and the rest is split on its own. */
  lemma SplitAt(head: string, sep: char, tail: string)
    requires sep !in head
    ensures Split(head + [sep] + tail, sep) == [head] + Split(tail, sep)
  {
    var s := head + [sep] + tail;
    IndexAfterHead(head, sep, tail);
    assert s[|head|] == sep;
    assert s[..|head|] == head;
    assert s[|head| + 1..] == tail;
  }

  /** Splitting inverts joining: separator-free parts joined with the
      separator split back into the same parts. Together with the third
      ensures of `Split` this makes `Split` and `Join` mutually inverse. */
  lemma {:induction false} SplitJoin(parts: seq<string>, sep: char)
    requires |parts| >= 1
    requires forall i :: 0 <= i < |parts| ==> sep !in parts[i]
    ensures Split(Join(parts, [sep]), sep) == parts
  {
    if |parts| > 1 {
      var head, rest := parts[0], parts[1..];
      var tail := Join(rest, [sep]);
      assert Join(parts, [sep]) == head + [sep] + tail;
      SplitAt(head, sep, tail);
      SplitJoin(rest, sep);
      assert parts == [head] + rest;
    }
  }

  /** The character of decimal digit `d`. */
  function DigitChar(d: nat): char
    requires d < 10
  {
    "0123456789"[d]
  }

  /** The decimal numeral of `n`, without leading zeros. */
  function NatDecimal(n: nat): string
    decreases n
  {
    if n < 10 then [DigitChar(n)] else NatDecimal(n / 10) + [DigitChar(n % 10)]
  }

  /** How a template literal renders a whole number: a minus sign before
      the numeral of a negative one. */
  function IntDecimal(n: int): string {
    if n < 0 then "-" + NatDecimal(-n) else NatDecimal(n)
  }
}
